=== FILE: README.md ===
# swayimg mode handlers and image data lifecycle, in Dafny

This project models two parts of the swayimg image viewer, written in C.

The first part is the handlers that every viewer mode shares, from `src/mode.c`:
- `mode_handle` dispatches each user action.
- `execute_cmd` runs an external command on the current or the marked images, then reports the outcome on the status bar.
- `collect_paths` gathers the sources of the marked images.

The second part is the lifecycle of an image's data container, from `src/image.c` and `src/image.h`:
- `image_create` chooses the display name.
- `image_clear` drops data slots by mask, with its two automatic rules: the decoder goes when no frames remain, and the meta info goes when neither frames nor a thumbnail remain.
- `image_free` drops the container, and for `IMGDATA_SELF` the image structure itself.
- `image_attach` moves one image's data into another.
- `image_toggle_marked` flips the mark.
- The predicates `image_has_frames`, `image_has_info` and `image_thumb_get`, and the `IMGDATA_*` and `LDRSRC_*` constants, complete this part.

## How the model is built

- **Module layout.**
  - `Base` holds `Option` and the terminator.
  - `CStr` models `strlen`, `memcpy` and `%s` on terminated buffers.
  - `Decimal` models `%d` and the parser that reads it back.
  - `ShellCmd` models the shell engine's interface and `SHELLCMD_TIMEOUT`.
  - `Status` models the status message and its truncation.
  - `Images` models `image.c`.
  - `Mode` models `mode.c`.
- **Collaborators.** The status bar, help overlay, UI, application and standard streams are modelled as a `World` value. That value holds the state the handlers change plus an ordered log of `Effect`s, one per call made to a collaborator. It also holds the list of heap `Buffer`s the handlers have freed: the command, the message, the captures and the path list.
- **Functions passed in.** Collaborators whose result the handlers use are passed in as functions:
  - the shell engine's `shellcmd_expr` and `shellcmd_exec`;
  - `strerror`;
  - the active mode's own `handle_action`;
  - `action_typename`;
  - `fs_name`.
- **Ownership.**
  - Each owned heap object is a `Resource`. Data slots hold abstract `Handle`s.
  - Every freeing call becomes an entry in a release list.
  - `Count(d, x)` is how many times a container owns `x`.
  - `Released(s, x)` is how many times `x` appears in a release list `s`.
  - Ownership proofs are conservation laws: what was owned before equals what is owned after plus what was released. So nothing leaks and nothing is released twice.
- **Predicates.** `Images.HasFrames` (`src/image.c:204-207`), `Images.HasInfo` (`src/image.c:209-212`) and `Images.ThumbGet` (`src/image.c:344-348`) are stated directly as predicates on the image. The image-level contracts (`Images.Clear`, `Images.ClearReleasesDecoderIffIdle`, `Images.AttachKeepsDecoderBesideFrames`) use these predicates. The container-level ones (`Images.ClearData`, the other `Images.Attach*` lemmas) name the container's slots directly.
- **Status length.** `max_status` is 60 (`src/mode.c:23`), and a message longer than that is cut. But `memcpy(msg + max_status - sizeof(ellipsis), …)` copies `"...\0"` at offset 56, because `sizeof` counts the terminator. So a long message is published as 56 characters plus the ellipsis: 59 characters, not 60. The model computes exactly this (`Status.TrimCutsLong`).
- **Characters are bytes.** A Dafny `char` in status, command and capture text stands for one C `char`, that is, one byte. Message and capture texts are byte strings, and every length in the contracts (60, 56, 59) is a byte count.

## Model

| member | source | states |
|---|---|---|
| Status.Trim | src/mode.c:70-76 | the published status is never longer than 60 characters and never contains a terminator |
| Status.TrimKeepsShort | src/mode.c:70 | a terminator-free message of at most 60 characters is published unchanged |
| Status.TrimCutsLong | src/mode.c:70-74 | a longer message becomes its first 56 characters followed by `...`, 59 characters in all |
| Status.TrimIdempotent | src/mode.c:70-76 | cutting an already published status changes nothing |
| Status.TrimKeepsHead | src/mode.c:70-74 | any terminator-free head of at most 56 characters survives the cut |
| Status.ErrorPrefixShort | src/mode.c:59-61 | `"Error %d: "` for any 32-bit code fits before the cut point and has no terminator |
| Status.FailureStatusNamesCode | src/mode.c:58-76 | on failure the published status starts with `Error <rc>: `, and reading the code back from it gives `rc` however long the detail was |
| Status.TimeoutStatusNamed | src/mode.c:55-57 | a timed-out command's status starts with the timeout notice, and is exactly notice plus command when that fits |
| Status.FailureDetailPriority | src/mode.c:62-68 | the failure detail is standard error if captured, else standard output, else the code's description |
| Status.SuccessMessage | src/mode.c:48-54 | on success the message is the captured output, or `Success: ` plus the command when nothing was captured |
| Decimal.NatToDecimal | src/mode.c:60 | digits of a natural number: non-empty, all digits, no leading zero, `0` for zero |
| Decimal.IntToDecimal | src/mode.c:60 | `%d` output: non-empty, with a leading minus exactly for negative values |
| Decimal.IntDecimalRoundTrip | src/mode.c:60 | parsing the printed code gives back the same integer |
| CStr.StrLen | src/mode.c:70 | `strlen` is the index of the first terminator; everything before it is not a terminator |
| CStr.MemCpy | src/mode.c:73 | `memcpy` overwrites exactly the window and keeps the prefix, the suffix and the length |
| CStr.TextOfTerminated | src/mode.c:76 | a terminated text prints as itself whatever follows the terminator |
| Mode.ExecuteCmd | src/mode.c:21-84 | only the status, the call log and the freed buffers change; the status is at most 60 characters; the call log and freed list keep what came before, and the log's last two entries publish the new status and then request a redraw |
| Mode.ExecuteWithoutCommand | src/mode.c:31-36 | when no command can be composed the status reads `Error: no command to execute`, a redraw follows, nothing runs and nothing is freed |
| Mode.ExecuteReportsOutcome | src/mode.c:37-83 | the command runs once, captured standard output then standard error are echoed, then the trimmed message is published and a redraw requested; the command, the message and the captures present are freed |
| Mode.ExecuteFreesEachOnce | src/mode.c:78-81 | with a command, the command and the message are each freed exactly once, and each capture exactly once when present and never otherwise; without a command nothing is freed |
| Mode.ExecuteSuccessShowsOutput | src/mode.c:40-50 | a successful run shows its captured output, unchanged when short and cut when long, after echoing it |
| Mode.MarkedSources | src/mode.c:86-112 | there are as many collected paths as marked images |
| Mode.MarkedSourcesInOrder | src/mode.c:103-109 | each marked image's source sits at the position given by the number of marked images before it |
| Mode.MarkedSourcesFromMarked | src/mode.c:103-109 | each collected path is the source of a marked image |
| Mode.CollectMarkedPaths | src/mode.c:86-112 | the two-pass collection returns nothing exactly when no image is marked, and otherwise the marked sources in list order |
| Mode.Dispatch | src/mode.c:114-177 | images keep length, order, sources and data, and only marking changes a mark; only help and exit touch the help overlay; only exit with help hidden ends the application, with code 0; only the two command actions free buffers |
| Mode.DispatchLogGrows | src/mode.c:114-177 | no action undoes or reorders the collaborator calls made before it |
| Mode.HelpToggles | src/mode.c:153-160 | help flips the overlay, calls hide or show accordingly, and asks for a redraw |
| Mode.HelpTwiceRestores | src/mode.c:153-160 | two help actions restore the overlay state |
| Mode.ExitDismissesHelp | src/mode.c:161-164 | exit while help is shown only hides the help and redraws |
| Mode.ExitQuits | src/mode.c:165-167 | exit with help hidden ends the application with code 0 |
| Mode.ExitConfirmsAfterHelp | src/mode.c:153-167 | after help opens, the first exit only closes it and the second ends the application |
| Mode.ExecMarkedWithoutMarks | src/mode.c:144-152 | running on the marked set with no marks changes nothing at all |
| Mode.ExecMarkedRunsOnMarked | src/mode.c:144-152 | with marks, the command gets the marked sources in list order, and the path list is freed once after the run |
| Mode.ExecRunsOnCurrent | src/mode.c:131-139 | the current image's source is the only path passed |
| Mode.UnhandledReported | src/mode.c:169-175 | any other kind is first handed to the mode's own handler; when that handles it nothing else happens, otherwise it is reported as `Unhandled action: <name>` with a redraw |
| Mode.MarkTogglesCurrent | src/mode.c:140-143 | marking flips the current image's mark, shows the new mark and redraws; no other image changes |
| Mode.MarkTwiceRestores | src/mode.c:140-143 | marking twice gives back the image list |
| Mode.PlainActions | src/mode.c:117-130 | info switch and status text each make one call and redraw; fullscreen and mode switch each make one call and no redraw |
| Images.Create | src/image.c:20-40 | a new image holds a copy of the source, is unmarked and has no data; it is named by the source itself for `stdin://` and for sources whose first 7 characters are `exec://`, and by the file-name part otherwise |
| Images.CreateNameIsSource | src/image.c:30-36 | the name equals the source exactly when the source is special or is its own file-name part |
| Images.MaskConstants | src/image.h:105-109 | the masks are 1, 2 and 4; ALL is 7; SELF is 15, which contains ALL and differs from it |
| Images.SourcePrefixLengths | src/image.h:13-19 | the prefix lengths are 8 and 7, not counting the terminator |
| Images.ClearData | src/image.c:42-96 | frames and thumbnail go when their bit is set; info goes when its bit is set or when neither frames nor thumbnail remain; with no frames the decoder is zeroed, otherwise kept; parent and format go exactly when everything is free |
| Images.ClearConserves | src/image.c:42-96 | what a clear takes out of the container is exactly what it releases |
| Images.Clear | src/image.c:42-96 | only the data changes; the result is true exactly when no frames, thumbnail or info remain; the frames bit always leaves no frames |
| Images.ClearEverythingEmpties | src/image.c:42-96 | a mask covering all three kinds leaves an empty container and reports all free |
| Images.ClearReleasesDecoderIffIdle | src/image.c:56-63 | the decoder's release hook runs exactly when no frames remain and the decoder has state, whatever the mask |
| Images.ClearIdempotent | src/image.c:42-96 | a second clear with the same mask changes nothing and releases nothing |
| Images.Free | src/image.c:98-107 | the image structure goes exactly for `IMGDATA_SELF`; for any other mask the image keeps what `image_clear` with that mask leaves, without its container when the clear reported everything free, and is untouched when it had no container |
| Images.FreeConserves | src/image.c:98-107 | for every mask, what the image owned equals what it still owns plus what was released: nothing leaks and nothing is released twice |
| Images.FreeReleasesContainer | src/image.c:100-106 | the container is released exactly when it existed and clearing emptied it; the structure only for SELF |
| Images.FreeSelfReleasesEverything | src/image.c:98-107 | freeing with SELF releases everything the image owned, each thing exactly once |
| Images.Attach | src/image.c:109-161 | only the data of the two images changes, and the target always ends with a container |
| Images.AttachConserves | src/image.c:109-161 | both images and the release list together hold exactly what the two images held before |
| Images.AttachMovesSlots | src/image.c:124-160 | every slot the source image had ends up in the target; the source keeps none and loses a decoder that had state |
| Images.AttachDestroysMovedDecoder | src/image.c:124-136 | when the source brings both decoder state and frames, the frame clear releases the moved decoder and the target ends with a zeroed decoder. That state is released exactly once, or twice when the target's own decoder held the same state |
| Images.AttachKeepsDecoderBesideFrames | src/image.c:124-130 | decoder state moved into a target that keeps its own frames survives the attach |
| Images.ToggleMarked | src/image.c:214-218 | the mark is flipped, the new mark is returned, and nothing else changes |
| Images.ToggleMarkedTwice | src/image.c:214-218 | toggling twice gives back the image and its original mark |

## Left out

- Output streams: the `fprintf` echoes to standard output and standard error are log entries carrying the captured text. The echo's `%.*s` stopping at an embedded terminator is not modelled.
- The shell engine's internals: `shellcmd_expr` and `shellcmd_exec` are the functions of `ShellCmd.Engine`. Child processes, pipes and the timeout are not modelled.
- `strerror`, `action_typename`, `fs_name` and the mode's own `handle_action` are parameters. Their results are taken as given.
- Mode.Dispatch: the mode's own `handle_action` is modelled only by the call, recorded as a `Delegated` log entry, and by its answer. Whatever else a concrete mode's handler changes is not modelled. So the frame clauses (images, current index, help overlay, exit code) cover only `mode_handle`'s own arms; for a mode-specific kind they say nothing about what the mode's handler does.
- Status.Trim: UTF-8 is not decoded. The 60, 56 and 59 limits count bytes, so the cut at byte 56 can split a multi-byte character in two. The model's texts are sequences of single-byte characters.
- ShellCmd.Outcome: a present capture buffer is taken to be non-empty. For an empty one, `str_append` would get size 0, which means "up to the terminator" on a buffer that need not have one. The model appends the empty text.
- Images.Attach: `img` and `from` are distinct objects. The only guard in the source is equal sources, which also passes for `image_attach(img, img)`. In that aliased call the frame step's `image_clear(img, IMGDATA_FRAMES)` frees the very frames it then moves, destroying the image's data. The model takes two separate values, so that case cannot arise.
- Allocation failure:
  - `calloc` returning NULL in `image_create` and `image_attach`;
  - `malloc` returning NULL in `collect_paths`, where the handler then silently does nothing;
  - `str_dup` and `str_append` failing.
  Every allocation succeeds in the model.
- `str_append` is taken to append the whole given text. A size of 0 means up to the terminator, which gives the same text for the terminated strings involved.
- The NULL terminator at the end of the path list is not modelled. Paths are a sequence of exactly the marked sources.
- Decoder hooks: `decoder.free` is modelled only by the release of the decoder's state. Other effects a concrete decoder's hook may have are not modelled.
- The help overlay's visibility flag, which `help_show`, `help_hide` and `help_visible` share, is modelled. How the overlay is drawn and the key bindings passed to `help_show` are not. The effects of `info_switch`, `ui_toggle_fullscreen`, `app_switch_mode` and `app_redraw` beyond being called are not modelled.
- Frame pixel data, frame durations and meta-info keys and values: frames, thumbnail and info are single owned handles. Freeing their inner pixmaps and key strings counts as part of releasing the handle.
- `image_load`, `image_export`, `image_render`, the flip and rotate functions, the thumbnail functions, `image_set_format`, `image_add_info`, `image_formats` and the pixmap helpers in `src/image.c` are not part of this model.
- The image's list index, file size and file time fields are not modelled.
- Concurrency: `mode_handle` runs on one thread and the model is sequential.

=== FILE: base.dfy ===
/** Small shared vocabulary: optional values and the C string terminator. */
module Base {

  /** A value that may be absent: the model of a pointer that may be NULL. */
  datatype Option<+T> = None | Some(value: T)

  /** The character that terminates a C string. */
  const NUL: char := '\0'

  /** True if `s` has no embedded terminator, so `strlen` sees all of it. */
  predicate NulFree(s: string)
  {
    forall i :: 0 <= i < |s| ==> s[i] != NUL
  }
}

=== FILE: cstr.dfy ===
/** NUL-terminated character buffers as the C library sees them. */
module CStr {
  import opened Base

  /** `strlen`: the index of the first terminator, or the whole buffer when there is none. */
  function StrLen(buf: seq<char>): (n: nat)
    ensures n <= |buf|
    ensures forall i :: 0 <= i < n ==> buf[i] != NUL
    ensures n < |buf| ==> buf[n] == NUL
  {
    if |buf| == 0 || buf[0] == NUL then 0 else 1 + StrLen(buf[1..])
  }

  /** The text that `%s` prints from a buffer. */
  function Text(buf: seq<char>): (s: string)
    ensures NulFree(s)
  {
    buf[..StrLen(buf)]
  }

  /** `memcpy(buf + off, src, |src|)`: overwrite a window of the buffer, length unchanged. */
  function MemCpy(buf: seq<char>, off: nat, src: seq<char>): (r: seq<char>)
    requires off + |src| <= |buf|
    ensures |r| == |buf|
    ensures r[..off] == buf[..off]
    ensures r[off..off + |src|] == src
    ensures r[off + |src|..] == buf[off + |src|..]
  {
    buf[..off] + src + buf[off + |src|..]
  }

  /** A NUL-free string followed by a terminator reads back as itself, whatever follows. */
  lemma TextOfTerminated(s: string, rest: seq<char>)
    requires NulFree(s)
    ensures StrLen(s + [NUL] + rest) == |s|
    ensures Text(s + [NUL] + rest) == s
  {
    var buf := s + [NUL] + rest;
    assert buf[|s|] == NUL;
    assert buf[..|s|] == s;
  }
}

=== FILE: decimal.dfy ===
/** Decimal rendering of integers, as `%d` prints them, and its inverse. */
module Decimal {
  import opened Base

  predicate IsDigit(c: char)
  {
    '0' <= c <= '9'
  }

  predicate AllDigits(s: string)
  {
    forall i :: 0 <= i < |s| ==> IsDigit(s[i])
  }

  function DigitValue(c: char): (d: nat)
    requires IsDigit(c)
    ensures d < 10
  {
    c as int - '0' as int
  }

  function DigitChar(d: nat): (c: char)
    requires d < 10
    ensures IsDigit(c) && DigitValue(c) == d
  {
    ('0' as int + d) as char
  }

  /** Digits of `n`, most significant first, with no leading zero. */
  function NatToDecimal(n: nat): (s: string)
    ensures |s| > 0 && AllDigits(s)
    ensures n == 0 ==> s == "0"
    ensures n > 0 ==> s[0] != '0'
  {
    if n < 10 then [DigitChar(n)] else NatToDecimal(n / 10) + [DigitChar(n % 10)]
  }

  /** `%d`: a minus sign for negative values, then the digits of the magnitude. */
  function IntToDecimal(i: int): (s: string)
    ensures |s| > 0 && NulFree(s)
    ensures s[0] == '-' <==> i < 0
  {
    if i < 0 then "-" + NatToDecimal(-i) else NatToDecimal(i)
  }

  /** Value of a string of digits. */
  function DigitsValue(s: string): nat
    requires AllDigits(s)
  {
    if |s| == 0 then 0 else 10 * DigitsValue(s[..|s| - 1]) + DigitValue(s[|s| - 1])
  }

  /** Reads back an optionally signed, non-empty decimal numeral. */
  function ParseDecimal(s: string): Option<int>
  {
    if |s| > 1 && s[0] == '-' && AllDigits(s[1..]) then
      var magnitude: int := DigitsValue(s[1..]);
      Some(-magnitude)
    else if |s| > 0 && AllDigits(s) then Some(DigitsValue(s))
    else None
  }

  lemma {:induction false} NatDecimalRoundTrip(n: nat)
    ensures DigitsValue(NatToDecimal(n)) == n
  {
    if n >= 10 {
      NatDecimalRoundTrip(n / 10);
      var s := NatToDecimal(n);
      assert s[..|s| - 1] == NatToDecimal(n / 10);
    }
  }

  /** The numeral `%d` prints always reads back as the same integer. */
  lemma IntDecimalRoundTrip(i: int)
    ensures ParseDecimal(IntToDecimal(i)) == Some(i)
  {
    var s := IntToDecimal(i);
    if i < 0 {
      assert s[1..] == NatToDecimal(-i);
      NatDecimalRoundTrip(-i);
    } else {
      NatDecimalRoundTrip(i);
      assert IsDigit(s[0]);
    }
  }
}

=== FILE: image.dfy ===
/**
 * Image instance and the ownership lifecycle of its data container.
 *
 * An image owns an optional data container; the container owns optional
 * slots (frame array, thumbnail pixmap, meta-info array, parent and format
 * strings) and a decoder whose private state must be released through the
 * decoder's own hook. Every heap object is named by a `Resource`, so that
 * clearing, freeing and attaching can be shown to release exactly what they
 * stop holding: nothing leaks and nothing is released twice.
 */
module Images {
  import opened Base

  /** Bits of the data-type mask taken by clear and free. */
  const IMGDATA_FRAMES: bv64 := 1 << 0
  const IMGDATA_THUMB: bv64 := 1 << 1
  const IMGDATA_INFO: bv64 := 1 << 2
  const IMGDATA_ALL: bv64 := IMGDATA_FRAMES | IMGDATA_THUMB | IMGDATA_INFO
  /** Everything, and the image structure itself. */
  const IMGDATA_SELF: bv64 := (1 << 3) | IMGDATA_ALL

  /** Source of an image read from standard input. */
  const LDRSRC_STDIN: string := "stdin://"
  const LDRSRC_STDIN_LEN: nat := |LDRSRC_STDIN|
  /** Prefix of a source that is the output of an external command. */
  const LDRSRC_EXEC: string := "exec://"
  const LDRSRC_EXEC_LEN: nat := |LDRSRC_EXEC|

  predicate Has(mask: bv64, bit: bv64)
  {
    mask & bit != 0
  }

  /** Identity of one heap object owned by the data container. */
  type Handle = nat

  /** Decoder-specific handlers and the decoder's private state. */
  datatype Decoder = Decoder(handlers: Option<Handle>, data: Option<Handle>)

  /** A zero-filled decoder: no handlers, no state. */
  const NO_DECODER: Decoder := Decoder(None, None)

  datatype ImgData = ImgData(
    parent: Option<string>,
    format: Option<string>,
    frames: Option<Handle>,
    info: Option<Handle>,
    thumbnail: Option<Handle>,
    decoder: Decoder)

  /** A freshly `calloc`ed container. */
  const EMPTY_DATA: ImgData := ImgData(None, None, None, None, None, NO_DECODER)

  datatype Image = Image(source: string, name: string, marked: bool, data: Option<ImgData>)

  /** Something that has to be released exactly once. */
  datatype Resource =
    | FrameArray(frames: Handle)
    | ThumbPixmap(thumb: Handle)
    | InfoArray(info: Handle)
    | DecoderState(state: Handle)
    | ParentName(parent: string)
    | FormatText(format: string)
    | DataContainer
    | ImageSelf

  function Owns(o: Option<Handle>, h: Handle): nat
  {
    if o == Some(h) then 1 else 0
  }

  function OwnsText(o: Option<string>, t: string): nat
  {
    if o == Some(t) then 1 else 0
  }

  /** How many times a container owns `x` (0 or 1): its slots, decoder state included. */
  function Count(d: ImgData, x: Resource): nat
  {
    match x
    case FrameArray(h) => Owns(d.frames, h)
    case ThumbPixmap(h) => Owns(d.thumbnail, h)
    case InfoArray(h) => Owns(d.info, h)
    case DecoderState(h) => Owns(d.decoder.data, h)
    case ParentName(t) => OwnsText(d.parent, t)
    case FormatText(t) => OwnsText(d.format, t)
    case DataContainer => 0
    case ImageSelf => 0
  }

  /** How many times an image owns `x`: its structure, and its container with contents when present. */
  function ImageCount(img: Image, x: Resource): nat
  {
    (if x == ImageSelf then 1 else 0)
    + (if img.data.Some? then (if x == DataContainer then 1 else 0) + Count(img.data.value, x) else 0)
  }

  /** How many times `x` appears in a release list: how often it was freed. */
  function Released(s: seq<Resource>, x: Resource): nat
  {
    if |s| == 0 then 0 else Released(s[..|s| - 1], x) + (if s[|s| - 1] == x then 1 else 0)
  }

  /** Releases of a list made of two parts are the releases of each part. */
  lemma {:induction false} ReleasedConcat(a: seq<Resource>, b: seq<Resource>, x: Resource)
    ensures Released(a + b, x) == Released(a, x) + Released(b, x)
    decreases |b|
  {
    if |b| > 0 {
      var init := b[..|b| - 1];
      assert (a + b)[..|a + b| - 1] == a + init;
      ReleasedConcat(a, init, x);
    } else {
      assert a + b == a;
    }
  }

  predicate HasFrames(img: Image)
  {
    img.data.Some? && img.data.value.frames.Some?
  }

  predicate HasInfo(img: Image)
  {
    img.data.Some? && img.data.value.info.Some?
  }

  /** The thumbnail pixmap, when there is one. */
  function ThumbGet(img: Image): Option<Handle>
  {
    if img.data.Some? then img.data.value.thumbnail else None
  }

  /** No frames, thumbnail or meta info: the condition clear reports. */
  predicate AllFree(d: ImgData)
  {
    d.frames.None? && d.thumbnail.None? && d.info.None?
  }

  // ---------------------------------------------------------------- create

  /** The display name chosen for a source; `fsName` is the file-name part of a path. */
  function NameOf(source: string, fsName: string -> string): string
  {
    if source == LDRSRC_STDIN || ExecPrefixed(source) then source else fsName(source)
  }

  /** `strncmp(source, LDRSRC_EXEC, LDRSRC_EXEC_LEN) == 0`: the first seven characters are `exec://`. */
  predicate ExecPrefixed(source: string)
  {
    |source| >= LDRSRC_EXEC_LEN && source[..LDRSRC_EXEC_LEN] == LDRSRC_EXEC
  }

  /**
   * A new, unmarked image with a copy of `source` and no data. The name is
   * the source itself for exactly `stdin://` and for anything whose first
   * seven characters are `exec://`; any other source is named by its
   * file-name part.
   */
  function Create(source: string, fsName: string -> string): (img: Image)
    ensures img.source == source
    ensures !img.marked && img.data.None?
    ensures source == LDRSRC_STDIN ==> img.name == source
    ensures ExecPrefixed(source) ==> img.name == source
    ensures source != LDRSRC_STDIN && !ExecPrefixed(source) ==> img.name == fsName(source)
  {
    Image(source, NameOf(source, fsName), false, None)
  }

  /**
   * An image is named by its own source exactly when the source is one of
   * the special ones or is its own file-name part; otherwise the name is a
   * different string.
   */
  lemma CreateNameIsSource(source: string, fsName: string -> string)
    ensures Create(source, fsName).name == source
            <==> source == LDRSRC_STDIN || ExecPrefixed(source) || fsName(source) == source
  {
  }

  /** The mask bits are distinct single bits; ALL is their union; SELF strictly contains ALL. */
  lemma MaskConstants()
    ensures IMGDATA_FRAMES == 1 && IMGDATA_THUMB == 2 && IMGDATA_INFO == 4
    ensures IMGDATA_ALL == 7 && IMGDATA_SELF == 15
    ensures IMGDATA_SELF & IMGDATA_ALL == IMGDATA_ALL && IMGDATA_SELF != IMGDATA_ALL
  {
  }

  /** The prefix lengths count the characters only, not the terminator. */
  lemma SourcePrefixLengths()
    ensures LDRSRC_STDIN_LEN == 8 && LDRSRC_EXEC_LEN == 7
  {
  }

  // ----------------------------------------------------------------- clear

  /** A container after one step of a transition, and what the step released. */
  datatype Step = Step(data: ImgData, released: seq<Resource>)

  function DropFrames(d: ImgData, mask: bv64): Step
  {
    if Has(mask, IMGDATA_FRAMES) && d.frames.Some? then
      Step(d.(frames := None), [FrameArray(d.frames.value)])
    else
      Step(d, [])
  }

  /** Without frames the decoder is useless: release its state through its hook and zero it. */
  function DropIdleDecoder(d: ImgData): Step
  {
    if d.frames.None? then
      Step(d.(decoder := NO_DECODER),
           if d.decoder.data.Some? then [DecoderState(d.decoder.data.value)] else [])
    else
      Step(d, [])
  }

  function DropThumb(d: ImgData, mask: bv64): Step
  {
    if Has(mask, IMGDATA_THUMB) && d.thumbnail.Some? then
      Step(d.(thumbnail := None), [ThumbPixmap(d.thumbnail.value)])
    else
      Step(d, [])
  }

  /** Meta info goes along when neither frames nor a thumbnail remain. */
  function InfoMask(d: ImgData, mask: bv64): bv64
  {
    if d.frames.None? && d.thumbnail.None? then mask | IMGDATA_INFO else mask
  }

  function DropInfo(d: ImgData, mask: bv64): Step
  {
    if Has(mask, IMGDATA_INFO) && d.info.Some? then
      Step(d.(info := None), [InfoArray(d.info.value)])
    else
      Step(d, [])
  }

  function DropRest(d: ImgData): Step
  {
    if AllFree(d) then
      Step(d.(parent := None, format := None),
           (if d.parent.Some? then [ParentName(d.parent.value)] else [])
           + (if d.format.Some? then [FormatText(d.format.value)] else []))
    else
      Step(d, [])
  }

  /**
   * The container transition of `image_clear`. The result's slots are given
   * by the mask and the two automatic rules, and what left the container is
   * exactly what was released.
   */
  function ClearData(d: ImgData, mask: bv64): (r: Step)
    ensures r.data.frames == (if Has(mask, IMGDATA_FRAMES) then None else d.frames)
    ensures r.data.thumbnail == (if Has(mask, IMGDATA_THUMB) then None else d.thumbnail)
    ensures r.data.info
            == (if Has(mask, IMGDATA_INFO) || (r.data.frames.None? && r.data.thumbnail.None?)
                then None else d.info)
    ensures r.data.frames.None? ==> r.data.decoder == NO_DECODER
    ensures r.data.frames.Some? ==> r.data.decoder == d.decoder
    ensures AllFree(r.data) ==> r.data.parent.None? && r.data.format.None?
    ensures !AllFree(r.data) ==> r.data.parent == d.parent && r.data.format == d.format
  {
    var s1 := DropFrames(d, mask);
    var s2 := DropIdleDecoder(s1.data);
    var s3 := DropThumb(s2.data, mask);
    var s4 := DropInfo(s3.data, InfoMask(s3.data, mask));
    var s5 := DropRest(s4.data);
    Step(s5.data, s1.released + s2.released + s3.released + s4.released + s5.released)
  }

  lemma DropFramesConserves(d: ImgData, mask: bv64, x: Resource)
    ensures Count(d, x) == Count(DropFrames(d, mask).data, x) + Released(DropFrames(d, mask).released, x)
  {
  }

  lemma DropIdleDecoderConserves(d: ImgData, x: Resource)
    ensures Count(d, x) == Count(DropIdleDecoder(d).data, x) + Released(DropIdleDecoder(d).released, x)
  {
  }

  lemma DropThumbConserves(d: ImgData, mask: bv64, x: Resource)
    ensures Count(d, x) == Count(DropThumb(d, mask).data, x) + Released(DropThumb(d, mask).released, x)
  {
  }

  lemma DropInfoConserves(d: ImgData, mask: bv64, x: Resource)
    ensures Count(d, x) == Count(DropInfo(d, mask).data, x) + Released(DropInfo(d, mask).released, x)
  {
  }

  lemma DropRestConserves(d: ImgData, x: Resource)
    ensures Count(d, x) == Count(DropRest(d).data, x) + Released(DropRest(d).released, x)
  {
    if AllFree(d) {
      DropRestReleases(d, x);
      if x.ParentName? || x.FormatText? {
        assert Count(DropRest(d).data, x) == 0;
      } else {
        assert Count(DropRest(d).data, x) == Count(d, x);
      }
    }
  }

  lemma DropRestReleases(d: ImgData, x: Resource)
    requires AllFree(d)
    ensures Released(DropRest(d).released, x)
            == (if x.ParentName? then OwnsText(d.parent, x.parent) else 0)
               + (if x.FormatText? then OwnsText(d.format, x.format) else 0)
  {
    var parents := if d.parent.Some? then [ParentName(d.parent.value)] else [];
    var formats := if d.format.Some? then [FormatText(d.format.value)] else [];
    ReleasedConcat(parents, formats, x);
    if d.parent.Some? { ReleasedOne(ParentName(d.parent.value), x); }
    if d.format.Some? { ReleasedOne(FormatText(d.format.value), x); }
  }

  lemma ReleasedOne(y: Resource, x: Resource)
    ensures Released([y], x) == (if x == y then 1 else 0)
  {
    assert [y][..0] == [];
  }

  lemma ReleasedConcat5(a: seq<Resource>, b: seq<Resource>, c: seq<Resource>, d: seq<Resource>, e: seq<Resource>, x: Resource)
    ensures Released(a + b + c + d + e, x) == Released(a, x) + Released(b, x) + Released(c, x) + Released(d, x) + Released(e, x)
  {
    ReleasedConcat(a, b, x);
    ReleasedConcat(a + b, c, x);
    ReleasedConcat(a + b + c, d, x);
    ReleasedConcat(a + b + c + d, e, x);
  }

  /** What a clear takes out of the container is exactly what it releases. */
  lemma ClearConserves(d: ImgData, mask: bv64, x: Resource)
    ensures var r := ClearData(d, mask);
            Count(d, x) == Count(r.data, x) + Released(r.released, x)
  {
    var s1 := DropFrames(d, mask);
    var s2 := DropIdleDecoder(s1.data);
    var s3 := DropThumb(s2.data, mask);
    var s4 := DropInfo(s3.data, InfoMask(s3.data, mask));
    var s5 := DropRest(s4.data);
    DropFramesConserves(d, mask, x);
    DropIdleDecoderConserves(s1.data, x);
    DropThumbConserves(s2.data, mask, x);
    DropInfoConserves(s3.data, InfoMask(s3.data, mask), x);
    DropRestConserves(s4.data, x);
    ReleasedConcat5(s1.released, s2.released, s3.released, s4.released, s5.released, x);
  }

  datatype Cleared = Cleared(img: Image, allFree: bool, released: seq<Resource>)

  /** `image_clear`: the image must have a container, which the call dereferences unconditionally. */
  function Clear(img: Image, mask: bv64): (r: Cleared)
    requires img.data.Some?
    ensures r.img.data.Some? && r.img.(data := img.data) == img
    ensures r.allFree <==> !HasFrames(r.img) && ThumbGet(r.img).None? && !HasInfo(r.img)
    ensures Has(mask, IMGDATA_FRAMES) ==> !HasFrames(r.img)
  {
    var s := ClearData(img.data.value, mask);
    Cleared(img.(data := Some(s.data)), AllFree(s.data), s.released)
  }

  /** A mask covering frames, thumbnail and info leaves an empty container behind. */
  lemma ClearEverythingEmpties(img: Image, mask: bv64)
    requires img.data.Some?
    requires mask & IMGDATA_ALL == IMGDATA_ALL
    ensures Clear(img, mask).allFree
    ensures Clear(img, mask).img.data == Some(EMPTY_DATA)
  {
    assert Has(mask, IMGDATA_FRAMES) && Has(mask, IMGDATA_THUMB) && Has(mask, IMGDATA_INFO);
  }

  /**
   * The decoder's release hook runs during a clear exactly when no frames
   * remain and the decoder had state, whatever the mask says.
   */
  lemma ClearReleasesDecoderIffIdle(img: Image, mask: bv64, h: Handle)
    requires img.data.Some?
    ensures var r := Clear(img, mask);
            Released(r.released, DecoderState(h))
            == (if !HasFrames(r.img) && img.data.value.decoder.data == Some(h) then 1 else 0)
  {
    ClearDataReleasesDecoder(img.data.value, mask, h);
  }

  lemma ClearDataReleasesDecoder(d: ImgData, mask: bv64, h: Handle)
    ensures var r := ClearData(d, mask);
            Released(r.released, DecoderState(h))
            == (if r.data.frames.None? && d.decoder.data == Some(h) then 1 else 0)
  {
    var r := ClearData(d, mask);
    var x := DecoderState(h);
    ClearConserves(d, mask, x);
    assert Count(d, x) == Owns(d.decoder.data, h);
    assert Count(r.data, x) == Owns(r.data.decoder.data, h);
  }

  /** A second clear with the same mask changes nothing and releases nothing. */
  lemma ClearIdempotent(img: Image, mask: bv64)
    requires img.data.Some?
    ensures var once := Clear(img, mask);
            var twice := Clear(once.img, mask);
            twice.img == once.img && twice.released == [] && twice.allFree == once.allFree
  {
  }

  // ------------------------------------------------------------------ free

  /** The image after `image_free` (absent when the structure itself went), and what was released. */
  datatype Freed = Freed(img: Option<Image>, released: seq<Resource>)

  /** `image_free`: drop the container when clearing emptied it; drop the structure only for `IMGDATA_SELF`. */
  function Free(img: Image, mask: bv64): (r: Freed)
    ensures r.img.None? <==> mask == IMGDATA_SELF
    ensures r.img.Some? ==> r.img.value.(data := img.data) == img
    ensures mask != IMGDATA_SELF && img.data.None? ==> r == Freed(Some(img), [])
    ensures mask != IMGDATA_SELF && img.data.Some? && !Clear(img, mask).allFree
            ==> r.img == Some(Clear(img, mask).img)
    ensures mask != IMGDATA_SELF && img.data.Some? && Clear(img, mask).allFree
            ==> r.img == Some(img.(data := None))
  {
    var kept := ReleaseData(img, mask);
    if mask == IMGDATA_SELF then Freed(None, kept.released + [ImageSelf]) else kept
  }

  /** The container part of `image_free`: clear, and drop the container when nothing is left in it. */
  function ReleaseData(img: Image, mask: bv64): (r: Freed)
    ensures r.img.Some? && r.img.value.(data := img.data) == img
  {
    if img.data.None? then Freed(Some(img), [])
    else
      var c := Clear(img, mask);
      if c.allFree then Freed(Some(c.img.(data := None)), c.released + [DataContainer])
      else Freed(Some(c.img), c.released)
  }

  /** The container is released exactly when there was one and clearing it left nothing. */
  lemma FreeReleasesContainer(img: Image, mask: bv64)
    ensures Released(Free(img, mask).released, DataContainer)
            == (if img.data.Some? && Clear(img, mask).allFree then 1 else 0)
    ensures Released(Free(img, mask).released, ImageSelf) == (if mask == IMGDATA_SELF then 1 else 0)
    ensures Free(img, mask).img.Some? ==>
              (Free(img, mask).img.value.data.None? <==> img.data.None? || Clear(img, mask).allFree)
  {
    ReleaseDataCounts(img, mask);
    var kept := ReleaseData(img, mask);
    ReleasedAppendOne(kept.released, ImageSelf, DataContainer);
    ReleasedAppendOne(kept.released, ImageSelf, ImageSelf);
  }

  /**
   * Whatever the mask, nothing leaks and nothing is released twice: what the
   * image owned equals what it still owns plus what was released.
   */
  lemma FreeConserves(img: Image, mask: bv64, x: Resource)
    ensures var r := Free(img, mask);
            ImageCount(img, x) == (if r.img.Some? then ImageCount(r.img.value, x) else 0) + Released(r.released, x)
  {
    var kept := ReleaseData(img, mask);
    ReleaseDataConserves(img, mask, x);
    if mask == IMGDATA_SELF {
      if img.data.Some? {
        ClearEverythingEmpties(img, mask);
      }
      ReleasedAppendOne(kept.released, ImageSelf, x);
    }
  }

  /** The container part of a free conserves every resource. */
  lemma ReleaseDataConserves(img: Image, mask: bv64, x: Resource)
    ensures var r := ReleaseData(img, mask);
            ImageCount(img, x) == ImageCount(r.img.value, x) + Released(r.released, x)
  {
    if img.data.Some? {
      var c := Clear(img, mask);
      ClearConserves(img.data.value, mask, x);
      ClearKeepsStructures(img.data.value, mask);
      if c.allFree {
        ReleasedAppendOne(c.released, DataContainer, x);
        assert c.img.data == Some(EMPTY_DATA);
        EmptyOwnsNothing(x);
      }
    }
  }

  lemma ReleaseDataCounts(img: Image, mask: bv64)
    ensures Released(ReleaseData(img, mask).released, DataContainer)
            == (if img.data.Some? && Clear(img, mask).allFree then 1 else 0)
    ensures Released(ReleaseData(img, mask).released, ImageSelf) == 0
    ensures ReleaseData(img, mask).img.value.data.None? <==> img.data.None? || Clear(img, mask).allFree
  {
    if img.data.Some? {
      var c := Clear(img, mask);
      ClearKeepsStructures(img.data.value, mask);
      if c.allFree {
        ReleasedAppendOne(c.released, DataContainer, DataContainer);
        ReleasedAppendOne(c.released, DataContainer, ImageSelf);
      }
    }
  }

  /** A clear never releases the container or the image structure. */
  lemma ClearKeepsStructures(d: ImgData, mask: bv64)
    ensures Released(ClearData(d, mask).released, DataContainer) == 0
    ensures Released(ClearData(d, mask).released, ImageSelf) == 0
  {
    ClearConserves(d, mask, DataContainer);
    ClearConserves(d, mask, ImageSelf);
  }

  lemma ReleasedAppendOne(s: seq<Resource>, y: Resource, x: Resource)
    ensures Released(s + [y], x) == Released(s, x) + (if x == y then 1 else 0)
  {
    assert (s + [y])[..|s|] == s;
  }

  /** Freeing with `IMGDATA_SELF` releases everything the image owned, each thing once. */
  lemma FreeSelfReleasesEverything(img: Image, x: Resource)
    ensures Released(Free(img, IMGDATA_SELF).released, x) == ImageCount(img, x)
  {
    if img.data.Some? {
      var released := Clear(img, IMGDATA_SELF).released;
      ClearSelfReleasesContents(img, x);
      FreeSelfLog(img);
      ReleasedAfterFree(released, x);
    } else {
      assert Free(img, IMGDATA_SELF).released == [ImageSelf];
    }
  }

  lemma ReleasedAfterFree(released: seq<Resource>, x: Resource)
    ensures Released(released + [DataContainer] + [ImageSelf], x)
            == Released(released, x) + (if x == DataContainer then 1 else 0) + (if x == ImageSelf then 1 else 0)
  {
    ReleasedAppendOne(released, DataContainer, x);
    ReleasedAppendOne(released + [DataContainer], ImageSelf, x);
  }

  /** Clearing everything releases the container's contents, each once. */
  lemma ClearSelfReleasesContents(img: Image, x: Resource)
    requires img.data.Some?
    ensures Count(img.data.value, x) == Released(Clear(img, IMGDATA_SELF).released, x)
  {
    var c := Clear(img, IMGDATA_SELF);
    ClearEverythingEmpties(img, IMGDATA_SELF);
    EmptyOwnsNothing(x);
    ClearConserves(img.data.value, IMGDATA_SELF, x);
  }

  lemma EmptyOwnsNothing(x: Resource)
    ensures Count(EMPTY_DATA, x) == 0
  {
  }

  lemma FreeSelfLog(img: Image)
    requires img.data.Some?
    ensures Free(img, IMGDATA_SELF).released == Clear(img, IMGDATA_SELF).released + [DataContainer] + [ImageSelf]
  {
    ClearEverythingEmpties(img, IMGDATA_SELF);
  }

  // ---------------------------------------------------------------- attach

  /** The two containers during a move, and what the move released so far. */
  datatype Transfer = Transfer(dst: ImgData, src: ImgData, released: seq<Resource>)

  /** How many times the two containers and the release log together hold `x`. */
  function Total(t: Transfer, x: Resource): nat
  {
    Count(t.dst, x) + Count(t.src, x) + Released(t.released, x)
  }

  function MoveDecoder(t: Transfer): (r: Transfer)
    ensures r.src.decoder.data.None?
    ensures t.src.decoder.data.Some? ==> r.dst.decoder == t.src.decoder
    ensures r.dst == t.dst.(decoder := r.dst.decoder) && r.src == t.src.(decoder := r.src.decoder)
  {
    if t.src.decoder.data.Some? then
      Transfer(t.dst.(decoder := t.src.decoder), t.src.(decoder := NO_DECODER),
               t.released + if t.dst.decoder.data.Some? then [DecoderState(t.dst.decoder.data.value)] else [])
    else
      t
  }

  function MoveFrames(t: Transfer): (r: Transfer)
    ensures r.src == t.src.(frames := None)
    ensures t.src.frames.Some? ==> r.dst.frames == t.src.frames && r.dst.decoder == NO_DECODER
    ensures t.src.frames.None? ==> r == t
  {
    if t.src.frames.Some? then
      var c := ClearData(t.dst, IMGDATA_FRAMES);
      Transfer(c.data.(frames := t.src.frames), t.src.(frames := None), t.released + c.released)
    else
      t
  }

  function MoveThumb(t: Transfer): (r: Transfer)
    ensures r.src == t.src.(thumbnail := None)
    ensures t.src.thumbnail.Some? ==> r.dst.thumbnail == t.src.thumbnail
    ensures r.dst.frames == t.dst.frames
    ensures t.dst.frames.Some? ==> r.dst.decoder == t.dst.decoder
  {
    if t.src.thumbnail.Some? then
      var c := ClearData(t.dst, IMGDATA_THUMB);
      Transfer(c.data.(thumbnail := t.src.thumbnail), t.src.(thumbnail := None), t.released + c.released)
    else
      t
  }

  function MoveInfo(t: Transfer): (r: Transfer)
    ensures r.src == t.src.(info := None)
    ensures t.src.info.Some? ==> r.dst.info == t.src.info
    ensures r.dst.frames == t.dst.frames && r.dst.thumbnail == t.dst.thumbnail
    ensures t.dst.frames.Some? ==> r.dst.decoder == t.dst.decoder
  {
    if t.src.info.Some? then
      var c := ClearData(t.dst, IMGDATA_INFO);
      Transfer(c.data.(info := t.src.info), t.src.(info := None), t.released + c.released)
    else
      t
  }

  function MoveParent(t: Transfer): (r: Transfer)
    ensures r.src == t.src.(parent := None)
    ensures r.dst == t.dst.(parent := if t.src.parent.Some? then t.src.parent else t.dst.parent)
  {
    if t.src.parent.Some? then
      Transfer(t.dst.(parent := t.src.parent), t.src.(parent := None),
               t.released + if t.dst.parent.Some? then [ParentName(t.dst.parent.value)] else [])
    else
      t
  }

  function MoveFormat(t: Transfer): (r: Transfer)
    ensures r.src == t.src.(format := None)
    ensures r.dst == t.dst.(format := if t.src.format.Some? then t.src.format else t.dst.format)
  {
    if t.src.format.Some? then
      Transfer(t.dst.(format := t.src.format), t.src.(format := None),
               t.released + if t.dst.format.Some? then [FormatText(t.dst.format.value)] else [])
    else
      t
  }

  datatype Attached = Attached(img: Image, from: Image, released: seq<Resource>)

  /**
   * `image_attach`: move the data of `from` into `img`, which gets a fresh
   * container when it has none. `from` must have a container, which is
   * dereferenced unconditionally.
   */
  function Attach(img: Image, from: Image): (r: Attached)
    requires img.source == from.source
    requires from.data.Some?
    ensures r.img.data.Some? && r.img.(data := img.data) == img
    ensures r.from.data.Some? && r.from.(data := from.data) == from
  {
    var dst := if img.data.Some? then img.data.value else EMPTY_DATA;
    var t := MoveFormat(MoveParent(MoveInfo(MoveThumb(MoveFrames(MoveDecoder(
               Transfer(dst, from.data.value, [])))))));
    Attached(img.(data := Some(t.dst)), from.(data := Some(t.src)), t.released)
  }

  // Each move step hands resources on without creating, leaking or double-releasing any.

  lemma MoveDecoderConserves(t: Transfer, x: Resource)
    ensures Total(MoveDecoder(t), x) == Total(t, x)
  {
    ReleasedConcat(t.released, if t.dst.decoder.data.Some? then [DecoderState(t.dst.decoder.data.value)] else [], x);
  }

  lemma MoveFramesConserves(t: Transfer, x: Resource)
    ensures Total(MoveFrames(t), x) == Total(t, x)
  {
    ClearConserves(t.dst, IMGDATA_FRAMES, x);
    ReleasedConcat(t.released, ClearData(t.dst, IMGDATA_FRAMES).released, x);
  }

  lemma MoveThumbConserves(t: Transfer, x: Resource)
    ensures Total(MoveThumb(t), x) == Total(t, x)
  {
    ClearConserves(t.dst, IMGDATA_THUMB, x);
    ReleasedConcat(t.released, ClearData(t.dst, IMGDATA_THUMB).released, x);
  }

  lemma MoveInfoConserves(t: Transfer, x: Resource)
    ensures Total(MoveInfo(t), x) == Total(t, x)
  {
    ClearConserves(t.dst, IMGDATA_INFO, x);
    ReleasedConcat(t.released, ClearData(t.dst, IMGDATA_INFO).released, x);
  }

  lemma MoveParentConserves(t: Transfer, x: Resource)
    ensures Total(MoveParent(t), x) == Total(t, x)
  {
    ReleasedConcat(t.released, if t.dst.parent.Some? then [ParentName(t.dst.parent.value)] else [], x);
  }

  lemma MoveFormatConserves(t: Transfer, x: Resource)
    ensures Total(MoveFormat(t), x) == Total(t, x)
  {
    ReleasedConcat(t.released, if t.dst.format.Some? then [FormatText(t.dst.format.value)] else [], x);
  }

  /** Attaching moves ownership: both images and the release log together hold what the two images held. */
  lemma AttachConserves(img: Image, from: Image, x: Resource)
    requires img.source == from.source
    requires from.data.Some?
    ensures var r := Attach(img, from);
            (if img.data.Some? then Count(img.data.value, x) else 0) + Count(from.data.value, x)
            == Count(r.img.data.value, x) + Count(r.from.data.value, x) + Released(r.released, x)
  {
    var dst := if img.data.Some? then img.data.value else EMPTY_DATA;
    EmptyOwnsNothing(x);
    var t0 := Transfer(dst, from.data.value, []);
    var t1 := MoveDecoder(t0);
    var t2 := MoveFrames(t1);
    var t3 := MoveThumb(t2);
    var t4 := MoveInfo(t3);
    var t5 := MoveParent(t4);
    MoveDecoderConserves(t0, x);
    MoveFramesConserves(t1, x);
    MoveThumbConserves(t2, x);
    MoveInfoConserves(t3, x);
    MoveParentConserves(t4, x);
    MoveFormatConserves(t5, x);
  }

  /** Every slot `from` had ends up in `img`; `from` keeps none, and loses its decoder when that had state. */
  lemma AttachMovesSlots(img: Image, from: Image)
    requires img.source == from.source
    requires from.data.Some?
    ensures var src := from.data.value;
            var dst := Attach(img, from).img.data.value;
            && (src.frames.Some? ==> dst.frames == src.frames)
            && (src.thumbnail.Some? ==> dst.thumbnail == src.thumbnail)
            && (src.info.Some? ==> dst.info == src.info)
            && (src.parent.Some? ==> dst.parent == src.parent)
            && (src.format.Some? ==> dst.format == src.format)
    ensures var src := from.data.value;
            var left := Attach(img, from).from.data.value;
            && left.frames.None? && left.thumbnail.None? && left.info.None?
            && left.parent.None? && left.format.None?
            && left.decoder == (if src.decoder.data.Some? then NO_DECODER else src.decoder)
  {
  }

  /**
   * When `from` brings both a decoder with state and frames, the decoder is
   * moved into `img` and then destroyed by the frame clear that precedes the
   * frame move: `img` ends with a zeroed decoder and the moved state is
   * released, once, or twice when `img`'s own decoder held the same state.
   */
  lemma AttachDestroysMovedDecoder(img: Image, from: Image)
    requires img.source == from.source
    requires from.data.Some?
    requires from.data.value.decoder.data.Some? && from.data.value.frames.Some?
    ensures Attach(img, from).img.data.value.decoder == NO_DECODER
    ensures var h := from.data.value.decoder.data.value;
            Released(Attach(img, from).released, DecoderState(h))
            == 1 + (if img.data.Some? then Owns(img.data.value.decoder.data, h) else 0)
  {
    var r := Attach(img, from);
    var x := DecoderState(from.data.value.decoder.data.value);
    AttachZeroesDecoder(img, from);
    AttachMovesSlots(img, from);
    assert Count(r.img.data.value, x) == 0;
    assert Count(r.from.data.value, x) == 0;
    AttachConserves(img, from, x);
  }

  lemma AttachZeroesDecoder(img: Image, from: Image)
    requires img.source == from.source
    requires from.data.Some?
    requires from.data.value.frames.Some?
    ensures Attach(img, from).img.data.value.decoder == NO_DECODER
  {
  }

  /** A decoder with state moved into an image that keeps its own frames survives the attach. */
  lemma AttachKeepsDecoderBesideFrames(img: Image, from: Image)
    requires img.source == from.source
    requires from.data.Some?
    requires from.data.value.decoder.data.Some? && from.data.value.frames.None?
    requires HasFrames(img)
    ensures Attach(img, from).img.data.value.decoder == from.data.value.decoder
  {
  }

  // ------------------------------------------------------------------ mark

  /** The image after `image_toggle_marked`, and the mark the call returns. */
  datatype Toggled = Toggled(img: Image, marked: bool)

  /** `image_toggle_marked`: the image with its mark flipped, and the new mark. */
  function ToggleMarked(img: Image): (r: Toggled)
    ensures r.marked == r.img.marked && r.marked != img.marked
    ensures r.img.(marked := img.marked) == img
  {
    var flipped := img.(marked := !img.marked);
    Toggled(flipped, flipped.marked)
  }

  /** Toggling twice gives back the image as it was. */
  lemma ToggleMarkedTwice(img: Image)
    ensures ToggleMarked(ToggleMarked(img).img).img == img
    ensures ToggleMarked(ToggleMarked(img).img).marked == img.marked
  {
  }
}

=== FILE: mode.dfy ===
/**
 * Handlers common to every viewer mode: the action dispatcher, the external
 * command runner with its status report, and the collector of marked paths.
 *
 * The collaborators the handlers call (status bar, help overlay, UI, the
 * application, the shell engine) are modelled by the world state they
 * change and by an ordered log of the calls made to them.
 */
module Mode {
  import opened Base
  import opened ShellCmd
  import opened Status
  import opened Images

  /** Kind of a user action; `Other` stands for the kinds only a mode itself knows. */
  datatype ActionType =
    | ShowInfo
    | SetStatus
    | Fullscreen
    | SwitchMode
    | Exec
    | Mark
    | ExecMarked
    | Help
    | Exit
    | Other(id: nat)

  datatype Action = Action(kind: ActionType, params: string)

  /** One call to a collaborator, in the order made. */
  datatype Effect =
    | InfoSwitched(scheme: string)
    | StatusShown(text: string)
    | MarkShown(marked: bool)
    | FullscreenToggled
    | ModeSwitched(mode: string)
    | HelpShown
    | HelpHidden
    | CommandRun(cmd: string)
    | StdoutEcho(text: string)
    | StderrEcho(text: string)
    | Redrawn
    | Exited(code: int)
    | Delegated(action: Action)  // the active mode's own handler was asked to take the action

  /** A heap buffer the handlers come to own and must free. */
  datatype Buffer =
    | CommandText  // the composed command
    | StatusText   // the status message
    | CapturedOut  // the captured standard output
    | CapturedErr  // the captured standard error
    | PathList     // the array of marked paths

  /**
   * What the handlers can see and change: the image list with the active
   * mode's current image, the help overlay, the status text, the exit code
   * once the application was told to exit, the log of collaborator calls,
   * and the buffers freed so far, in the order freed.
   */
  datatype World = World(
    images: seq<Image>,
    current: nat,
    helpVisible: bool,
    status: string,
    exitCode: Option<int>,
    log: seq<Effect>,
    freed: seq<Buffer>)

  /**
   * Collaborators that are functions of their input: the shell engine,
   * `strerror`, the active mode's own action handler (true when it handled
   * the action; only that answer of it is modelled) and the printable name
   * of an action kind.
   */
  datatype Env = Env(
    shell: Engine,
    strerror: Int32 -> string,
    modeHandles: Action -> bool,
    typeName: Action -> string)

  function Emit(w: World, e: Effect): World
  {
    w.(log := w.log + [e])
  }

  function Publish(w: World, text: string): World
  {
    w.(status := text, log := w.log + [StatusShown(text)])
  }

  // ---------------------------------------------------------- execute_cmd

  /** Captured output copied to the viewer's own streams: standard output first. */
  function Echo(w: World, o: Outcome): World
  {
    var w1 := if o.out.Some? then Emit(w, StdoutEcho(o.out.value)) else w;
    if o.err.Some? then Emit(w1, StderrEcho(o.err.value)) else w1
  }

  /** The buffers a run owns once the command ran: the command, the message, and whatever was captured. */
  function RunBuffers(o: Outcome): seq<Buffer>
  {
    [CommandText, StatusText]
    + (if o.out.Some? then [CapturedOut] else [])
    + (if o.err.Some? then [CapturedErr] else [])
  }

  /** The log entries a run adds, after the collaborator calls made before it. */
  function Added(before: World, after: World): seq<Effect>
    requires |before.log| <= |after.log|
  {
    after.log[|before.log|..]
  }

  /**
   * Run `expr` with `paths` substituted, report the outcome on the status
   * bar, free the buffers of the run and request a redraw. Only the log, the
   * status text and the freed buffers change; the status is always at most
   * `MAX_STATUS` long, and publishing it then the redraw request end the log.
   */
  function ExecuteCmd(w: World, expr: string, paths: seq<string>, env: Env): (r: World)
    ensures r.(status := w.status, log := w.log, freed := w.freed) == w
    ensures |r.status| <= MAX_STATUS
    ensures |w.freed| <= |r.freed| && r.freed[..|w.freed|] == w.freed
    ensures |w.log| + 2 <= |r.log| && r.log[..|w.log|] == w.log
    ensures r.log[|r.log| - 1] == Redrawn && r.log[|r.log| - 2] == StatusShown(r.status)
  {
    match env.shell.compose(expr, paths)
    case None =>
      Emit(Publish(w, NO_COMMAND), Redrawn)
    case Some(cmd) =>
      var o := env.shell.exec(cmd);
      var echoed := Echo(Emit(w, CommandRun(cmd)), o);
      var published := Publish(echoed, Trim(Message(cmd, o, env.strerror)));
      Emit(published.(freed := published.freed + RunBuffers(o)), Redrawn)
  }

  /** Without a command the status says so, a redraw follows, and nothing is run, echoed or freed. */
  lemma ExecuteWithoutCommand(w: World, expr: string, paths: seq<string>, env: Env)
    requires env.shell.compose(expr, paths).None?
    ensures var r := ExecuteCmd(w, expr, paths, env);
            && r.status == NO_COMMAND && Added(w, r) == [StatusShown(NO_COMMAND), Redrawn]
            && r.freed == w.freed
  {
  }

  /**
   * With a command: it is run once, its captured output is echoed before the
   * status is published, and the published status is the trimmed message.
   */
  lemma ExecuteReportsOutcome(w: World, expr: string, paths: seq<string>, env: Env)
    requires env.shell.compose(expr, paths).Some?
    ensures var cmd := env.shell.compose(expr, paths).value;
            var o := env.shell.exec(cmd);
            var r := ExecuteCmd(w, expr, paths, env);
            && r.status == Trim(Message(cmd, o, env.strerror))
            && Added(w, r)
               == [CommandRun(cmd)]
                  + (if o.out.Some? then [StdoutEcho(o.out.value)] else [])
                  + (if o.err.Some? then [StderrEcho(o.err.value)] else [])
                  + [StatusShown(r.status), Redrawn]
            && r.freed == w.freed + RunBuffers(o)
  {
  }

  /**
   * Every buffer of a run is freed exactly once: the command and the message
   * always, each capture exactly when there was one; without a command
   * nothing is freed.
   */
  lemma ExecuteFreesEachOnce(w: World, expr: string, paths: seq<string>, env: Env, b: Buffer)
    ensures var r := ExecuteCmd(w, expr, paths, env);
            var c := env.shell.compose(expr, paths);
            multiset(r.freed[|w.freed|..])[b]
            == if c.None? || b == PathList then 0
               else if b == CapturedOut then (if env.shell.exec(c.value).out.Some? then 1 else 0)
               else if b == CapturedErr then (if env.shell.exec(c.value).err.Some? then 1 else 0)
               else 1
  {
    var r := ExecuteCmd(w, expr, paths, env);
    var c := env.shell.compose(expr, paths);
    if c.None? {
      assert r.freed[|w.freed|..] == [];
    } else {
      var o := env.shell.exec(c.value);
      ExecuteReportsOutcome(w, expr, paths, env);
      assert r.freed[|w.freed|..] == RunBuffers(o);
      RunBuffersOnce(o, b);
    }
  }

  lemma RunBuffersOnce(o: Outcome, b: Buffer)
    ensures multiset(RunBuffers(o))[b]
            == if b == PathList then 0
               else if b == CapturedOut then (if o.out.Some? then 1 else 0)
               else if b == CapturedErr then (if o.err.Some? then 1 else 0)
               else 1
  {
    var outs: seq<Buffer> := if o.out.Some? then [CapturedOut] else [];
    var errs: seq<Buffer> := if o.err.Some? then [CapturedErr] else [];
    assert multiset(RunBuffers(o)) == multiset{CommandText, StatusText} + multiset(outs) + multiset(errs);
  }

  /** A successful run with captured output shows that output, cut to fit when it is long. */
  lemma ExecuteSuccessShowsOutput(w: World, expr: string, paths: seq<string>, env: Env)
    requires env.shell.compose(expr, paths).Some?
    requires var o := env.shell.exec(env.shell.compose(expr, paths).value);
             o.rc == 0 && o.out.Some? && NulFree(o.out.value)
    ensures var text := env.shell.exec(env.shell.compose(expr, paths).value).out.value;
            var r := ExecuteCmd(w, expr, paths, env);
            && (|text| <= MAX_STATUS ==> r.status == text)
            && (|text| > MAX_STATUS ==> r.status == text[..CUT] + ELLIPSIS)
            && StdoutEcho(text) in Added(w, r)
  {
    var cmd := env.shell.compose(expr, paths).value;
    var text := env.shell.exec(cmd).out.value;
    ExecuteReportsOutcome(w, expr, paths, env);
    if |text| <= MAX_STATUS {
      TrimKeepsShort(text);
    } else {
      TrimCutsLong(text);
    }
  }

  // -------------------------------------------------------- collect_paths

  /** Number of marked images. */
  function CountMarked(images: seq<Image>): nat
  {
    if |images| == 0 then 0
    else CountMarked(images[..|images| - 1]) + (if images[|images| - 1].marked then 1 else 0)
  }

  /** Sources of the marked images, in list order. */
  function MarkedSources(images: seq<Image>): (paths: seq<string>)
    ensures |paths| == CountMarked(images)
  {
    if |images| == 0 then []
    else
      MarkedSources(images[..|images| - 1])
      + if images[|images| - 1].marked then [images[|images| - 1].source] else []
  }

  /** The marked paths, or none when no image is marked. */
  function CollectPaths(images: seq<Image>): Option<seq<string>>
  {
    if CountMarked(images) == 0 then None else Some(MarkedSources(images))
  }

  lemma {:induction false} CountMarkedPrefix(images: seq<Image>, i: nat)
    requires i <= |images|
    ensures CountMarked(images[..i]) <= CountMarked(images)
    decreases |images|
  {
    if i < |images| {
      var init := images[..|images| - 1];
      assert init[..i] == images[..i];
      CountMarkedPrefix(init, i);
    } else {
      assert images[..i] == images;
    }
  }

  /**
   * Each marked image lands at the position given by the number of marked
   * images before it: the paths keep list order and skip nothing.
   */
  lemma {:induction false} MarkedSourcesInOrder(images: seq<Image>, i: nat)
    requires i < |images| && images[i].marked
    ensures CountMarked(images[..i]) < |MarkedSources(images)|
    ensures MarkedSources(images)[CountMarked(images[..i])] == images[i].source
    decreases |images|
  {
    var init := images[..|images| - 1];
    if i == |images| - 1 {
      assert images[..i] == init;
    } else {
      assert init[..i] == images[..i];
      MarkedSourcesInOrder(init, i);
    }
  }

  /** Every collected path is the source of a marked image, the one at that marked position. */
  lemma {:induction false} MarkedSourcesFromMarked(images: seq<Image>, k: nat)
    requires k < |MarkedSources(images)|
    ensures exists i :: 0 <= i < |images| && images[i].marked && CountMarked(images[..i]) == k
                        && MarkedSources(images)[k] == images[i].source
    decreases |images|
  {
    var init := images[..|images| - 1];
    var last := |images| - 1;
    if k < |MarkedSources(init)| {
      MarkedSourcesFromMarked(init, k);
      var i :| 0 <= i < |init| && init[i].marked && CountMarked(init[..i]) == k
               && MarkedSources(init)[k] == init[i].source;
      assert init[..i] == images[..i];
    } else {
      assert images[..last] == init;
      assert images[last].marked && CountMarked(images[..last]) == k;
    }
  }

  /**
   * `collect_paths`: count the marked images, then fill an array of exactly
   * that size with their sources in a second pass.
   */
  method CollectMarkedPaths(images: seq<Image>) returns (paths: Option<seq<string>>)
    ensures paths.None? <==> CountMarked(images) == 0
    ensures paths.Some? ==> paths.value == MarkedSources(images)
    ensures paths == CollectPaths(images)
  {
    var count := 0;
    var i := 0;
    while i < |images|
      invariant 0 <= i <= |images|
      invariant count == CountMarked(images[..i])
    {
      assert images[..i + 1][..i] == images[..i];
      if images[i].marked {
        count := count + 1;
      }
      i := i + 1;
    }
    assert images[..|images|] == images;
    if count == 0 {
      return None;
    }

    var buf := new string[count];
    var next := 0;
    i := 0;
    while i < |images|
      invariant 0 <= i <= |images|
      invariant next == CountMarked(images[..i]) <= count
      invariant buf[..next] == MarkedSources(images[..i])
    {
      assert images[..i + 1][..i] == images[..i];
      CountMarkedPrefix(images, i + 1);
      if images[i].marked {
        buf[next] := images[i].source;
        next := next + 1;
      }
      i := i + 1;
    }
    return Some(buf[..count]);
  }

  // ---------------------------------------------------------- mode_handle

  /** Kinds that act on the mode's current image, which must then exist. */
  predicate UsesCurrent(kind: ActionType)
  {
    kind.Exec? || kind.Mark?
  }

  /**
   * `mode_handle`: the effect of one action. The image list keeps its
   * length, order, sources and data; only marking changes a mark, only the
   * help and exit actions touch the help overlay, and only an exit with the
   * overlay hidden ends the application.
   */
  function Dispatch(w: World, a: Action, env: Env): (r: World)
    requires UsesCurrent(a.kind) ==> w.current < |w.images|
    ensures |r.images| == |w.images| && r.current == w.current
    ensures forall i :: 0 <= i < |w.images| ==>
              r.images[i].(marked := w.images[i].marked) == w.images[i]
    ensures !a.kind.Mark? ==> r.images == w.images
    ensures r.helpVisible != w.helpVisible ==> a.kind.Help? || a.kind.Exit?
    ensures r.exitCode != w.exitCode ==> a.kind.Exit? && !w.helpVisible && r.exitCode == Some(0)
    ensures r.freed != w.freed ==> a.kind.Exec? || a.kind.ExecMarked?
  {
    match a.kind
    case ShowInfo =>
      Emit(Emit(w, InfoSwitched(a.params)), Redrawn)
    case SetStatus =>
      Emit(Publish(w, a.params), Redrawn)
    case Fullscreen =>
      Emit(w, FullscreenToggled)
    case SwitchMode =>
      Emit(w, ModeSwitched(a.params))
    case Exec =>
      ExecuteCmd(w, a.params, [w.images[w.current].source], env)
    case Mark =>
      var t := ToggleMarked(w.images[w.current]);
      Emit(Emit(w.(images := w.images[w.current := t.img]), MarkShown(t.marked)), Redrawn)
    case ExecMarked =>
      var paths := CollectPaths(w.images);
      if paths.None? then w
      else
        var ran := ExecuteCmd(w, a.params, paths.value, env);
        ran.(freed := ran.freed + [PathList])
    case Help =>
      if w.helpVisible then Emit(Emit(w.(helpVisible := false), HelpHidden), Redrawn)
      else Emit(Emit(w.(helpVisible := true), HelpShown), Redrawn)
    case Exit =>
      if w.helpVisible then Emit(Emit(w.(helpVisible := false), HelpHidden), Redrawn)
      else Emit(w.(exitCode := Some(0)), Exited(0))
    case Other(_) =>
      var asked := Emit(w, Delegated(a));
      if env.modeHandles(a) then asked
      else Emit(Publish(asked, "Unhandled action: " + env.typeName(a)), Redrawn)
  }

  /** The call log only grows: no action undoes or reorders the calls made before it. */
  lemma DispatchLogGrows(w: World, a: Action, env: Env)
    requires UsesCurrent(a.kind) ==> w.current < |w.images|
    ensures var r := Dispatch(w, a, env);
            |w.log| <= |r.log| && r.log[..|w.log|] == w.log
  {
  }

  /** Help flips the overlay and asks for a redraw; status and exit state stay as they were. */
  lemma HelpToggles(w: World, a: Action, env: Env)
    requires a.kind.Help?
    ensures var r := Dispatch(w, a, env);
            && r.helpVisible == !w.helpVisible
            && Added(w, r) == [if w.helpVisible then HelpHidden else HelpShown, Redrawn]
            && r.status == w.status && r.exitCode == w.exitCode
  {
  }

  /** Two help actions give back the overlay state. */
  lemma HelpTwiceRestores(w: World, a: Action, env: Env)
    requires a.kind.Help?
    ensures Dispatch(Dispatch(w, a, env), a, env).helpVisible == w.helpVisible
  {
  }

  /** Exit while help is shown only hides the help and redraws. */
  lemma ExitDismissesHelp(w: World, a: Action, env: Env)
    requires a.kind.Exit? && w.helpVisible
    ensures var r := Dispatch(w, a, env);
            !r.helpVisible && r.exitCode == w.exitCode && Added(w, r) == [HelpHidden, Redrawn]
  {
  }

  /** Exit with help hidden ends the application with code 0, and asks for no redraw. */
  lemma ExitQuits(w: World, a: Action, env: Env)
    requires a.kind.Exit? && !w.helpVisible
    ensures var r := Dispatch(w, a, env);
            r.exitCode == Some(0) && Added(w, r) == [Exited(0)]
  {
  }

  /** Help, then exit, only closes the help; a second exit ends the application. */
  lemma ExitConfirmsAfterHelp(w: World, help: Action, exit: Action, env: Env)
    requires help.kind.Help? && exit.kind.Exit? && !w.helpVisible && w.exitCode.None?
    ensures var w1 := Dispatch(w, help, env);
            var w2 := Dispatch(w1, exit, env);
            var w3 := Dispatch(w2, exit, env);
            && w1.helpVisible
            && !w2.helpVisible && w2.exitCode.None?
            && w3.exitCode == Some(0)
  {
  }

  /** Running on the marked set with nothing marked changes nothing at all. */
  lemma ExecMarkedWithoutMarks(w: World, a: Action, env: Env)
    requires a.kind.ExecMarked? && CountMarked(w.images) == 0
    ensures Dispatch(w, a, env) == w
  {
  }

  /** With marks, the command gets the sources of the marked images in list order; the path list is freed after the run. */
  lemma ExecMarkedRunsOnMarked(w: World, a: Action, env: Env)
    requires a.kind.ExecMarked? && CountMarked(w.images) > 0
    ensures var ran := ExecuteCmd(w, a.params, MarkedSources(w.images), env);
            Dispatch(w, a, env) == ran.(freed := ran.freed + [PathList])
  {
  }

  /** Running on the current image passes its source as the only path; that list lives on the stack, so nothing more is freed. */
  lemma ExecRunsOnCurrent(w: World, a: Action, env: Env)
    requires a.kind.Exec? && w.current < |w.images|
    ensures Dispatch(w, a, env) == ExecuteCmd(w, a.params, [w.images[w.current].source], env)
  {
  }

  /**
   * Any other kind is handed to the mode's own handler first; when that
   * declines it too, it is reported on the status bar with a redraw.
   */
  lemma UnhandledReported(w: World, a: Action, env: Env)
    requires a.kind.Other?
    ensures var r := Dispatch(w, a, env);
            && (env.modeHandles(a) ==> r == w.(log := w.log + [Delegated(a)]))
            && (!env.modeHandles(a) ==>
                  r.status == "Unhandled action: " + env.typeName(a)
                  && Added(w, r) == [Delegated(a), StatusShown(r.status), Redrawn])
  {
  }

  /** Marking flips the current image's mark, shows the new mark and redraws; no other image changes. */
  lemma MarkTogglesCurrent(w: World, a: Action, env: Env)
    requires a.kind.Mark? && w.current < |w.images|
    ensures var r := Dispatch(w, a, env);
            && r.images[w.current].marked == !w.images[w.current].marked
            && (forall i :: 0 <= i < |w.images| && i != w.current ==> r.images[i] == w.images[i])
            && Added(w, r) == [MarkShown(r.images[w.current].marked), Redrawn]
  {
  }

  /** Marking twice gives back the image list. */
  lemma MarkTwiceRestores(w: World, a: Action, env: Env)
    requires a.kind.Mark? && w.current < |w.images|
    ensures Dispatch(Dispatch(w, a, env), a, env).images == w.images
  {
    ToggleMarkedTwice(w.images[w.current]);
  }

  /**
   * The remaining built-in kinds: an info scheme switch and a status text
   * redraw; the fullscreen and mode switches are left to their owners,
   * who redraw themselves.
   */
  lemma PlainActions(w: World, a: Action, env: Env)
    requires a.kind in {ShowInfo, SetStatus, Fullscreen, SwitchMode}
    ensures var r := Dispatch(w, a, env);
            && (a.kind == ShowInfo ==> Added(w, r) == [InfoSwitched(a.params), Redrawn])
            && (a.kind == SetStatus ==> r.status == a.params && Added(w, r) == [StatusShown(a.params), Redrawn])
            && (a.kind == Fullscreen ==> Added(w, r) == [FullscreenToggled])
            && (a.kind == SwitchMode ==> Added(w, r) == [ModeSwitched(a.params)])
  {
  }
}

=== FILE: shellcmd.dfy ===
/** The shell command engine as its callers see it: two entry points and one special result code. */
module ShellCmd {
  import opened Base

  /** A C `int`. */
  newtype Int32 = x: int | -0x8000_0000 <= x < 0x8000_0000

  /** Result code meaning that the child process timed out. */
  const SHELLCMD_TIMEOUT: Int32 := 256

  /**
   * Result of running one command: the child's exit code (negative when the
   * engine itself failed) and whatever it wrote to its standard output and
   * standard error, when anything was captured.
   */
  datatype Outcome = Outcome(rc: Int32, out: Option<string>, err: Option<string>)

  /**
   * The engine: `compose` substitutes the paths into an expression and gives
   * no command when it cannot; `exec` runs a command to completion or timeout.
   */
  datatype Engine = Engine(
    compose: (string, seq<string>) -> Option<string>,
    exec: string -> Outcome)
}

=== FILE: status.dfy ===
/**
 * The status line reported after running an external command: how the
 * message is composed from the outcome, and how a long message is cut to
 * fit the status bar.
 */
module Status {
  import opened Base
  import opened CStr
  import opened Decimal
  import opened ShellCmd

  /** Longest message shown as it is. */
  const MAX_STATUS: nat := 60
  const ELLIPSIS: string := "..."
  /** `sizeof` of the ellipsis array: its characters and the terminator. */
  const ELLIPSIS_SIZE: nat := |ELLIPSIS| + 1
  /** Where the ellipsis is copied into a message that is too long. */
  const CUT: nat := MAX_STATUS - ELLIPSIS_SIZE

  const NO_COMMAND: string := "Error: no command to execute"
  const SUCCESS_PREFIX: string := "Success: "
  const TIMEOUT_PREFIX: string := "Child process timed out: "

  /** `"Error %d: "`. */
  function ErrorPrefix(rc: Int32): string
  {
    "Error " + IntToDecimal(rc as int) + ": "
  }

  /** The message before truncation, chosen by the result code; `strerror` describes an OS error code. */
  function Message(cmd: string, o: Outcome, strerror: Int32 -> string): string
  {
    if o.rc == 0 then
      if o.out.Some? then o.out.value else SUCCESS_PREFIX + cmd
    else if o.rc == SHELLCMD_TIMEOUT then
      TIMEOUT_PREFIX + cmd
    else
      ErrorPrefix(o.rc)
      + if o.err.Some? then o.err.value
        else if o.out.Some? then o.out.value
        else strerror(o.rc)
  }

  /**
   * The text published for a message: when `strlen` exceeds the maximum,
   * the ellipsis and its terminator are copied over the buffer at `CUT`;
   * either way the status bar prints the buffer up to its first terminator.
   */
  function Trim(msg: string): (r: string)
    ensures |r| <= MAX_STATUS
    ensures NulFree(r)
  {
    var buf := msg + [NUL];
    if StrLen(buf) > MAX_STATUS then
      var cut := MemCpy(buf, CUT, ELLIPSIS + [NUL]);
      assert cut[CUT + |ELLIPSIS|] == NUL;
      Text(cut)
    else
      Text(buf)
  }

  /** A message that fits is published unchanged. */
  lemma TrimKeepsShort(msg: string)
    requires NulFree(msg) && |msg| <= MAX_STATUS
    ensures Trim(msg) == msg
  {
    TextOfTerminated(msg, []);
  }

  /** A longer message keeps its first 56 characters and ends in the ellipsis: 59 characters, not 60. */
  lemma TrimCutsLong(msg: string)
    requires NulFree(msg) && |msg| > MAX_STATUS
    ensures Trim(msg) == msg[..CUT] + ELLIPSIS
    ensures |Trim(msg)| == MAX_STATUS - 1
  {
    var buf := msg + [NUL];
    TextOfTerminated(msg, []);
    var cut := MemCpy(buf, CUT, ELLIPSIS + [NUL]);
    assert cut == (msg[..CUT] + ELLIPSIS) + [NUL] + buf[CUT + ELLIPSIS_SIZE..];
    TextOfTerminated(msg[..CUT] + ELLIPSIS, buf[CUT + ELLIPSIS_SIZE..]);
  }

  /** Publishing a published text again changes nothing. */
  lemma TrimIdempotent(msg: string)
    ensures Trim(Trim(msg)) == Trim(msg)
  {
    TrimKeepsShort(Trim(msg));
  }

  /** A terminator-free head of at most 56 characters always survives, whatever follows it. */
  lemma TrimKeepsHead(msg: string, head: string)
    requires NulFree(head) && |head| <= CUT && head <= msg
    ensures head <= Trim(msg)
  {
    var buf := msg + [NUL];
    assert buf[..|head|] == head;
    if StrLen(buf) > MAX_STATUS {
      var cut := MemCpy(buf, CUT, ELLIPSIS + [NUL]);
      assert cut[..|head|] == head;
    }
  }

  /** Length of a 32-bit code as `%d` prints it. */
  lemma ErrorPrefixShort(rc: Int32)
    ensures |ErrorPrefix(rc)| <= CUT
    ensures NulFree(ErrorPrefix(rc))
  {
    var magnitude: nat := if rc < 0 then -(rc as int) else rc as int;
    DecimalWidth(magnitude, 10);
  }

  function Pow10(k: nat): nat
  {
    if k == 0 then 1 else 10 * Pow10(k - 1)
  }

  lemma {:induction false} DecimalWidth(n: nat, k: nat)
    requires 1 <= k && n < Pow10(k)
    ensures |NatToDecimal(n)| <= k
  {
    if n >= 10 {
      DecimalWidth(n / 10, k - 1);
    }
  }

  /** Index of the first colon, or the length when there is none. */
  function ColonAt(s: string): (k: nat)
    ensures k <= |s|
    ensures forall i :: 0 <= i < k ==> s[i] != ':'
    ensures k < |s| ==> s[k] == ':'
  {
    if |s| == 0 || s[0] == ':' then 0 else 1 + ColonAt(s[1..])
  }

  /** Reads the result code back from a status line of the form `Error <code>: ...`. */
  function ReadErrorCode(status: string): Option<int>
  {
    if |status| >= 6 && status[..6] == "Error " then
      var rest := status[6..];
      ParseDecimal(rest[..ColonAt(rest)])
    else
      None
  }

  /**
   * A failing outcome's code can be read back from the published status,
   * truncated or not: the `Error <code>: ` head always survives the cut.
   */
  lemma FailureStatusNamesCode(cmd: string, o: Outcome, strerror: Int32 -> string)
    requires o.rc != 0 && o.rc != SHELLCMD_TIMEOUT
    ensures ErrorPrefix(o.rc) <= Trim(Message(cmd, o, strerror))
    ensures ReadErrorCode(Trim(Message(cmd, o, strerror))) == Some(o.rc as int)
  {
    var head := ErrorPrefix(o.rc);
    var code := IntToDecimal(o.rc as int);
    var status := Trim(Message(cmd, o, strerror));
    ErrorPrefixShort(o.rc);
    TrimKeepsHead(Message(cmd, o, strerror), head);
    assert status[..|head|] == head;
    var rest := status[6..];
    assert rest[..|code| + 1] == code + ":";
    assert forall i :: 0 <= i < |code| ==> rest[i] == code[i];
    assert rest[|code|] == ':';
    assert rest[..ColonAt(rest)] == code;
    IntDecimalRoundTrip(o.rc as int);
  }

  /** The status of a timed-out command always starts with the timeout notice. */
  lemma TimeoutStatusNamed(cmd: string, o: Outcome, strerror: Int32 -> string)
    requires o.rc == SHELLCMD_TIMEOUT
    ensures TIMEOUT_PREFIX <= Trim(Message(cmd, o, strerror))
    ensures NulFree(cmd) && |TIMEOUT_PREFIX + cmd| <= MAX_STATUS
            ==> Trim(Message(cmd, o, strerror)) == TIMEOUT_PREFIX + cmd
  {
    TrimKeepsHead(Message(cmd, o, strerror), TIMEOUT_PREFIX);
    if NulFree(cmd) && |TIMEOUT_PREFIX + cmd| <= MAX_STATUS {
      TrimKeepsShort(TIMEOUT_PREFIX + cmd);
    }
  }

  /** On failure the detail comes from standard error first, then standard output, then the code's description. */
  lemma FailureDetailPriority(cmd: string, o: Outcome, strerror: Int32 -> string)
    requires o.rc != 0 && o.rc != SHELLCMD_TIMEOUT
    ensures o.err.Some? ==> Message(cmd, o, strerror) == ErrorPrefix(o.rc) + o.err.value
    ensures o.err.None? && o.out.Some? ==> Message(cmd, o, strerror) == ErrorPrefix(o.rc) + o.out.value
    ensures o.err.None? && o.out.None? ==> Message(cmd, o, strerror) == ErrorPrefix(o.rc) + strerror(o.rc)
  {
  }

  /** On success the message is the captured output, or names the command when nothing was captured. */
  lemma SuccessMessage(cmd: string, o: Outcome, strerror: Int32 -> string)
    requires o.rc == 0
    ensures o.out.Some? ==> Message(cmd, o, strerror) == o.out.value
    ensures o.out.None? ==> Message(cmd, o, strerror) == SUCCESS_PREFIX + cmd
  {
  }
}
